=== FILE: README.md ===
# kk-officail client pages, modelled in Dafny

This project models the client-side logic of the kk-officail construction
company site. That site is a set of React pages talking to a REST backend.
The model covers what the pages compute from the data they fetch, and how
their state changes:

- **Public projects page** (`Projects`). It fetches one snapshot. It shows
  the records that pass a category step (skipped for the token "All") and a
  case-insensitive text step (skipped when the trimmed term is empty).
- **Home-page services strip** (`ServicesSection`). It extracts the list from
  either body shape, sorts it newest first and keeps three.
- **"Completed Projects" strip** (`CompletedProjects`). It shows the first two
  projects, with alternating card layout.
- **Testimonials marquee** (`Testimonials`). It shows the list four times, and
  each card gets a star count.
- **FAQ accordion** (`Faq`). At most one item is open.
- **Admin dashboard** (`Dashboard`). Four counters are read from four
  responses that settle together.
- **Admin service manager** (`ManageServices`):
  - the modal form, and the multipart payload built from it;
  - a PUT while editing, a POST when adding, and a confirmed DELETE;
  - the overlay flag and the refetch after a write.
- **Contact form** (`ContactUs`): required fields, no second submit while
  one is running, and which toast a reply produces.
- **Image upload page** (`UploadTest`).

Shared modules:

- `Common`: `Option` and `Outcome`.
- `Text`: `toLowerCase` on ASCII letters, `trim` with the ECMAScript
  whitespace set, and `includes`.
- `Sequences`: `Array.prototype.filter` as `Keep`, and the subsequence
  relation.
- `Records`: the API records.

Each page whose state changes is a `class`. Its React state hooks are the
class's fields. An `async` handler becomes two methods:

- `Begin…` runs up to the `await` and returns the request it would send.
- `End…(outcome)` runs after the request settles. `Success(data)` is a reply;
  `Failure` is a rejected request, which the handler's `catch` absorbs.

The network, console output, alerts and every toast other than the contact
form's are not modelled. The
requests are returned as values, and the replies are passed in as
parameters.

Behaviour worth noting:

- The projects search matches the untrimmed, lower-cased term. `trim()` only
  decides whether the text step runs.
- A dashboard counter that reads a string field counts that string's
  length, because `?.length` applies to strings too.
- When any of the four dashboard reads fails, `setStats` is never reached.
  The counters keep their previous values and are not marked as failed. From
  the initial state the counters look the same as four empty collections;
  the error toast "Failed to load dashboard data." that the failure also
  shows is not modelled.

## Model

| member | source | states |
|---|---|---|
| Text.LowerChar | frontend/src/Pages/Projects.jsx:54 | An ASCII capital letter becomes its lower-case letter, every other character is kept, and the result is never a capital letter. |
| Text.Lower | frontend/src/Pages/Projects.jsx:54 | The result has the input's length, and each character is folded on its own (`A`–`Z` to `a`–`z`, every other character kept). |
| Text.TrimStart | frontend/src/Pages/Projects.jsx:58 | Drops leading whitespace; what it guarantees is stated by `Text.TrimStartRemovesBlankPrefix`. |
| Text.TrimEnd | frontend/src/Pages/Projects.jsx:58 | Drops trailing whitespace; what it guarantees is stated by `Text.TrimEndRemovesBlankSuffix`. |
| Text.Trim | frontend/src/Pages/Projects.jsx:58 | `trim()`, both ends; what it guarantees is stated by `Text.TrimIsCore` and `Text.TrimEmptyIffBlank`. |
| Text.TrimStartRemovesBlankPrefix | frontend/src/Pages/Projects.jsx:58 | Trimming the start removes a whitespace-only prefix and stops at the first non-whitespace character. |
| Text.TrimEndRemovesBlankSuffix | frontend/src/Pages/Projects.jsx:58 | Trimming the end removes a whitespace-only suffix and stops at the last non-whitespace character. |
| Text.TrimIsCore | frontend/src/Pages/Projects.jsx:58 | `trim()` gives a contiguous slice of the input that neither starts nor ends with whitespace. |
| Text.TrimEmptyIffBlank | frontend/src/Pages/Projects.jsx:58 | `trim()` returns "" exactly when every character is whitespace, including the empty term. |
| Text.Includes | frontend/src/Pages/Projects.jsx:61-63 | `includes`: the term is a prefix of the string or of one of its tails; its positional meaning is stated by `Text.IncludesIffOccurs`. |
| Text.OccursAtShift | frontend/src/Pages/Projects.jsx:61-63 | An occurrence in the tail of a string is an occurrence one index further in the whole string. |
| Text.IncludesIffOccurs | frontend/src/Pages/Projects.jsx:61-63 | `includes` holds exactly when the substring starts at some index; the empty term is included everywhere. |
| Sequences.Keep | frontend/src/Pages/Projects.jsx:53-55 | `Array.prototype.filter`: never longer than its input; membership, order and composition are stated by the three lemmas below. |
| Sequences.KeepMembership | frontend/src/Pages/Projects.jsx:53-55 | An element is kept iff it is in the input and passes the test. |
| Sequences.KeepIsSubsequence | frontend/src/Pages/Projects.jsx:53-55 | Filtering only deletes elements; it never reorders them. |
| Sequences.KeepKeep | frontend/src/Pages/Projects.jsx:50-64 | Two filters in a row equal one filter by both tests. |
| Records.ProjectsOf | frontend/src/Pages/Projects.jsx:37-38 | The fetched `projects` array when present, otherwise the empty list. |
| Projects.TypeMatches | frontend/src/Pages/Projects.jsx:54 | The category test: the record has a `type` equal to the token up to ASCII case; a record without `type` never matches. |
| Projects.FieldMatches | frontend/src/Pages/Projects.jsx:61-63 | One field's test: the field is present and its lower-cased text includes the lower-cased term. |
| Projects.TextMatches | frontend/src/Pages/Projects.jsx:59-64 | The text test: title, location or description matches; stated positionally by `Projects.TextMatchesIffOccurs`. |
| Projects.FilterProjects | frontend/src/Pages/Projects.jsx:49-68 | The filter effect's result; stated by `Projects.FilterIsSelection`, `Projects.FilterMembership`, `Projects.FilterIsSubsequence` and `Projects.AllIsSuperset`. |
| Projects.FilterIsSelection | frontend/src/Pages/Projects.jsx:49-68 | Running the category filter and then the text filter equals one filter by "token is All or the type matches, and the term is blank or the text matches". |
| Projects.FilterIsSubsequence | frontend/src/Pages/Projects.jsx:50-67 | The shown list is an order-preserving subsequence of the snapshot, and a sub-multiset of it. |
| Projects.FilterMembership | frontend/src/Pages/Projects.jsx:52-64 | A record is shown iff it is in the snapshot, passes the category step (or the token is "All"), and passes the text step (or the trimmed term is empty); with a token other than "All" a record without `type` is never shown. |
| Projects.BlankTermKeepsCategoryResult | frontend/src/Pages/Projects.jsx:58 | A whitespace-only term leaves exactly the category step's result. |
| Projects.TextMatchesIffOccurs | frontend/src/Pages/Projects.jsx:59-64 | The text step holds iff the lower-cased term starts at some index of the lower-cased title, location or description (a missing field never matches). |
| Projects.AllIsSuperset | frontend/src/Pages/Projects.jsx:52-56 | For any term, the list under any token is a subsequence of the list under "All". |
| Projects.InitialFilterShowsAll | frontend/src/Pages/Projects.jsx:11-12 | With the initial empty term and "All", every record of the snapshot is shown, in order. |
| Projects.TruncatedDesc | frontend/src/Pages/Projects.jsx:167-169 | A description longer than 100 characters becomes its first 100 characters plus "..." (103 in all); a shorter one is kept; a missing one stays missing. |
| Projects.ProjectsPage.constructor | frontend/src/Pages/Projects.jsx:8-12 | Empty lists, spinner on, empty term, token "All", and the derived list is consistent with them. |
| Projects.ProjectsPage.RunFilterEffect | frontend/src/Pages/Projects.jsx:49-68 | After the effect the shown list equals the filter of the current snapshot, term and token; only the shown list changes. |
| Projects.ProjectsPage.FetchProjects | frontend/src/Pages/Projects.jsx:33-46 | On a reply the snapshot becomes the fetched `projects` array, or the empty list when it is absent; on a failure both lists stay. The spinner is off afterwards, and the shown list stays consistent with the snapshot and controls. |
| Projects.ProjectsPage.SetSearchTerm | frontend/src/Pages/Projects.jsx:106 | Typing sets the term and re-derives the shown list; the snapshot, token and spinner are kept. |
| Projects.ProjectsPage.SetFilterType | frontend/src/Pages/Projects.jsx:114 | Choosing a category sets the token and re-derives the shown list; the snapshot, term and spinner are kept. |
| Projects.FirstFetchShowsSnapshot | frontend/src/Pages/Projects.jsx:36-38 | Right after mounting and a successful first fetch, the shown list is the whole fetched snapshot. |
| ServicesSection.Extract | frontend/src/Pages/ServicesSection.jsx:36-38 | An array body is used as it is; an object body gives its `services` array, or `[]` when that field is absent or falsy; only a truthy non-array `services` gives no list. |
| ServicesSection.Insert | frontend/src/Pages/ServicesSection.jsx:47-51 | Inserting into a newest-first list gives a newest-first list with one more element, the same multiset plus the new element. |
| ServicesSection.SortNewestFirst | frontend/src/Pages/ServicesSection.jsx:47-51 | The sorted copy has the same multiset as the input and non-increasing `createdAt`. |
| ServicesSection.InsertStable | frontend/src/Pages/ServicesSection.jsx:47-51 | An inserted service comes first among the services that carry its timestamp, and the order of the others is kept. |
| ServicesSection.SortIsStable | frontend/src/Pages/ServicesSection.jsx:47-51 | Services with equal timestamps keep their relative order from the response, as `Array.prototype.sort` guarantees. |
| ServicesSection.Newest | frontend/src/Pages/ServicesSection.jsx:47-52 | The strip holds `min(3, n)` services, newest first. |
| ServicesSection.NewestAndOmittedPartition | frontend/src/Pages/ServicesSection.jsx:47-52 | The shown services and the ones left out together make up exactly the response, so every shown service comes from it. |
| ServicesSection.OmittedNotNewer | frontend/src/Pages/ServicesSection.jsx:47-52 | No service left out is newer than a shown one. |
| ServicesSection.ServicesToShow | frontend/src/Pages/ServicesSection.jsx:36-52 | A non-array or empty list shows nothing; otherwise the newest three are shown. |
| ServicesSection.ServicesStrip.constructor | frontend/src/Pages/ServicesSection.jsx:25-26 | No services, and the spinner is on. |
| ServicesSection.ServicesStrip.FetchServices | frontend/src/Pages/ServicesSection.jsx:30-58 | On a reply the list becomes what `ServicesToShow` gives, the early return for an empty list included; on a failure it is kept. The spinner is off in every case. |
| ServicesSection.FailedFirstFetchShowsNothing | frontend/src/Pages/ServicesSection.jsx:53-57 | A freshly mounted strip whose request fails shows no service and no spinner. |
| CompletedProjects.LimitedProjects | frontend/src/Pages/CompletedProjects.jsx:50 | The strip shows the first `min(2, n)` projects, as a prefix of the list. |
| CompletedProjects.EmptyMessageIffNoProjects | frontend/src/Pages/CompletedProjects.jsx:70-71 | "No projects found." is shown exactly when the fetched list is empty. |
| CompletedProjects.Cards | frontend/src/Pages/CompletedProjects.jsx:74-81 | One card per shown project, and card `i` holds project `i`. |
| CompletedProjects.CardsAlternate | frontend/src/Pages/CompletedProjects.jsx:79-81 | The first card is not reversed, and neighbouring cards face opposite ways. |
| CompletedProjects.CompletedProjectsStrip.constructor | frontend/src/Pages/CompletedProjects.jsx:22-23 | No projects, and the spinner is on. |
| CompletedProjects.CompletedProjectsStrip.FetchProjects | frontend/src/Pages/CompletedProjects.jsx:28-40 | On a reply the list becomes the fetched `projects` array, or the empty list when it is absent; on a failure it is kept. The spinner is off afterwards. |
| CompletedProjects.FailedFetchShowsEmptyMessage | frontend/src/Pages/CompletedProjects.jsx:32-36 | A freshly mounted strip whose request fails takes the empty-message branch. |
| Testimonials.Repeated | frontend/src/Pages/TestimonialsSection.jsx:18-23 | The list spread four times: `4n` cards; which card shows which testimonial is stated by `Testimonials.RepeatedCycles`. |
| Testimonials.RepeatedCycles | frontend/src/Pages/TestimonialsSection.jsx:18-23 | The marquee holds `4n` cards, and card `k` shows testimonial `k mod n`. |
| Testimonials.StarCount | frontend/src/Pages/TestimonialsSection.jsx:54 | A missing or zero rating gives 5 stars, and a rating from 1 to `2^32 - 1` gives that many; a negative rating, or one of `2^32` or more, makes `Array` throw. |
| Testimonials.TestimonialsSection.constructor | frontend/src/Pages/TestimonialsSection.jsx:9 | The list starts empty. |
| Testimonials.TestimonialsSection.FetchTestimonials | frontend/src/Pages/TestimonialsSection.jsx:11-16 | A reply replaces the list with `res.data`; a rejection leaves it as it was. |
| Testimonials.FailedFetchShowsNoCards | frontend/src/Pages/TestimonialsSection.jsx:15 | A failed first fetch leaves the marquee empty. |
| Faq.Toggled | frontend/src/Pages/FAQSection.jsx:83-85 | A click opens the clicked item exactly when it was not open, and otherwise closes everything; no other item is ever opened. |
| Faq.ToggleTwice | frontend/src/Pages/FAQSection.jsx:83-85 | Two clicks on a closed item leave everything closed; two clicks on the open item leave it open. |
| Faq.Accordion.constructor | frontend/src/Pages/FAQSection.jsx:6 | Every item starts closed. |
| Faq.Accordion.Click | frontend/src/Pages/FAQSection.jsx:79-99 | The clicked item's open state flips, and every other item is closed afterwards. |
| Faq.AtMostOneOpen | frontend/src/Pages/FAQSection.jsx:79 | In any state at most one item is open. |
| Dashboard.LengthOrZero | frontend/src/Pages/Admin/DashboardHome.jsx:36-39 | An array's element count, a string's length (counted in characters, see below), and 0 for an absent, null or other value. |
| Dashboard.NextStats | frontend/src/Pages/Admin/DashboardHome.jsx:28-43 | When all four reads answer, each counter is the length of its own field (`projects`, `services`, `team`, `data`); when any read fails, the counters are kept. |
| Dashboard.FailureLooksLikeNoRecords | frontend/src/Pages/Admin/DashboardHome.jsx:35-43 | From the initial counters, a failed read and four empty bodies give the same counters. |
| Dashboard.CountersAreIndependent | frontend/src/Pages/Admin/DashboardHome.jsx:35-40 | Each counter depends only on its own response. |
| Dashboard.DashboardHome.constructor | frontend/src/Pages/Admin/DashboardHome.jsx:9-17 | All counters start at 0, with the loading screen on. |
| Dashboard.DashboardHome.BeginFetch | frontend/src/Pages/Admin/DashboardHome.jsx:26 | The loading screen goes on and the counters are kept. |
| Dashboard.DashboardHome.EndFetch | frontend/src/Pages/Admin/DashboardHome.jsx:28-46 | The counters are updated all together or not at all, and the loading screen goes off. |
| ManageServices.WithField | frontend/src/Pages/Admin/ManageServices.jsx:40-41 | Only the named text field takes the new value; the other fields and the image are kept. |
| ManageServices.FormReady | frontend/src/Pages/Admin/ManageServices.jsx:247-262 | The modal's `required` inputs, title and description, are both non-empty. |
| ManageServices.AppendedText | frontend/src/Pages/Admin/ManageServices.jsx:54 | The text `FormData.append` stores for the icon: an `undefined` icon becomes "undefined", a string is stored as itself. |
| ManageServices.PayloadOf | frontend/src/Pages/Admin/ManageServices.jsx:51-55 | The `FormData` the submit builds; what it carries is stated by `ManageServices.PayloadFields`. |
| ManageServices.Lookup | frontend/src/Pages/Admin/ManageServices.jsx:51-55 | Reading an entry back from the `FormData`: the first entry under the key; used by `ManageServices.PayloadFields`. |
| ManageServices.PayloadFields | frontend/src/Pages/Admin/ManageServices.jsx:51-55 | The payload always carries `title`, `desc` and `icon` with the form's text, an `undefined` icon being sent as the text "undefined"; it carries `image` exactly when the form holds a file; it carries no other key. |
| ManageServices.SubmitRequest | frontend/src/Pages/Admin/ManageServices.jsx:58-70 | While editing, a PUT to `/api/services/<id>` of the edited service; otherwise a POST to `/api/services`; the form's payload is the body either way. |
| ManageServices.ServicesOf | frontend/src/Pages/Admin/ManageServices.jsx:26 | The fetched `services` array when present, otherwise the empty list. |
| ManageServices.ServiceManager.constructor | frontend/src/Pages/Admin/ManageServices.jsx:8-20 | No services, spinner on, no overlay, modal closed, nothing edited, empty form. |
| ManageServices.ServiceManager.FetchServices | frontend/src/Pages/Admin/ManageServices.jsx:23-33 | On a reply the list is replaced; on a failure it is kept. The spinner is off afterwards, and nothing else changes. |
| ManageServices.ServiceManager.HandleChange | frontend/src/Pages/Admin/ManageServices.jsx:40-41 | Only the named form field changes. |
| ManageServices.ServiceManager.HandleFileChange | frontend/src/Pages/Admin/ManageServices.jsx:43-44 | Only the form's image changes, to the picked file or to none. |
| ManageServices.ServiceManager.BeginSubmit | frontend/src/Pages/Admin/ManageServices.jsx:47-70 | With an empty title or description the browser holds the form back: nothing is sent and nothing changes. Otherwise the overlay goes on, and the request sent is `SubmitRequest` of the current form and edited service. |
| ManageServices.ServiceManager.EndSubmit | frontend/src/Pages/Admin/ManageServices.jsx:72-81 | On success: the modal closes, editing ends, the form is cleared and a refetch follows. On failure: modal, edited service and form are kept and there is no refetch. The overlay goes off either way. |
| ManageServices.ServiceManager.BeginDelete | frontend/src/Pages/Admin/ManageServices.jsx:85-89 | Without confirmation nothing happens; with it the overlay goes on and a DELETE of `/api/services/<id>` is sent. |
| ManageServices.ServiceManager.EndDelete | frontend/src/Pages/Admin/ManageServices.jsx:90-96 | A refetch follows exactly on success, and the overlay goes off. |
| ManageServices.ServiceManager.OpenEditModal | frontend/src/Pages/Admin/ManageServices.jsx:101-110 | The service becomes the edited one, its text fields are copied into the form with no file (a missing icon as `undefined`), and the modal opens. |
| ManageServices.ServiceManager.OpenAddModal | frontend/src/Pages/Admin/ManageServices.jsx:148-152 | Nothing is edited, the form is empty and the modal opens. |
| ManageServices.ServiceManager.CloseModal | frontend/src/Pages/Admin/ManageServices.jsx:236 | Only the modal closes; the edited service and the form are kept. |
| ManageServices.AddAfterEditPosts | frontend/src/Pages/Admin/ManageServices.jsx:148-152 | "Add Service" after an edit, once title and description are filled in, submits a POST to the collection, never a PUT. |
| ManageServices.IconlessEditSendsUndefined | frontend/src/Pages/Admin/ManageServices.jsx:101-110 | Saving an edit of a service without an icon, leaving the icon input untouched, sends a PUT whose `icon` is the text "undefined". |
| ManageServices.EmptyAddFormSendsNothing | frontend/src/Pages/Admin/ManageServices.jsx:247-262 | The freshly opened, empty "Add Service" form sends nothing. |
| ContactUs.RequiredFilled | frontend/src/Pages/ContactUs.jsx:98-135 | The inputs marked `required`, name, email and message, are all non-empty. |
| ContactUs.WithField | frontend/src/Pages/ContactUs.jsx:32-35 | Only the named field takes the new value. |
| ContactUs.ErrorText | frontend/src/Pages/ContactUs.jsx:55 | The server's message when it is present and non-empty, the default failure text otherwise; never empty. |
| ContactUs.NoticeFor | frontend/src/Pages/ContactUs.jsx:51-58 | A success toast, with the text "Message sent successfully! 🚀", exactly when the reply says `success`; an error toast with `ErrorText` for an unsuccessful reply; the server-error toast for a failed request. |
| ContactUs.ContactPage.constructor | frontend/src/Pages/ContactUs.jsx:23-29 | Empty form, not loading. |
| ContactUs.ContactPage.HandleChange | frontend/src/Pages/ContactUs.jsx:32-35 | Only the named field changes. |
| ContactUs.ContactPage.BeginSubmit | frontend/src/Pages/ContactUs.jsx:38-47 | While loading, or with an empty required field (name, email, message), nothing is sent and nothing changes; otherwise the form is the body and loading goes on. |
| ContactUs.ContactPage.EndSubmit | frontend/src/Pages/ContactUs.jsx:49-61 | The toast is `NoticeFor` the outcome; only a successful reply clears the form; loading goes off. |
| ContactUs.NoDoubleSubmit | frontend/src/Pages/ContactUs.jsx:144 | While the first submit runs, a second one sends nothing. |
| UploadTest.UploadPage.constructor | frontend/src/Pages/UploadTest.jsx:5-8 | No image, empty preview, empty uploaded URL, not loading. |
| UploadTest.UploadPage.HandleImageChange | frontend/src/Pages/UploadTest.jsx:11-17 | A picked file replaces the image and its preview; picking nothing changes nothing. |
| UploadTest.UploadPage.BeginUpload | frontend/src/Pages/UploadTest.jsx:20-31 | While loading, or without an image, nothing is sent and nothing changes; otherwise a POST to `/api/upload` with exactly one part, `image`, and loading goes on. |
| UploadTest.UploadPage.EndUpload | frontend/src/Pages/UploadTest.jsx:36-42 | On a reply the uploaded URL becomes its `imageUrl`, which may be missing; on a failure it is kept; loading goes off. |

## Left out

- Network I/O. Requests are returned as values and outcomes are passed in.
  The `API_BASE` environment lookup is a constructor parameter on the pages
  that keep it, and is left out where it only prefixes a URL that is not
  modelled.
- Toasts, `alert` and `console` output. The contact form's toast is returned
  as a `Notice`; the other toasts and alerts are not modelled.
- `URL.createObjectURL` is an opaque string parameter. `window.confirm` is a
  boolean parameter.
- Whatever the backend does with a write. A refetch after a write is
  reported as a flag, and the later fetch is a separate `FetchServices` call.
- Interleaving of overlapping requests. The model has no order between two
  requests in flight, for example a refetch racing a later edit.
  `Promise.all` is modelled as four outcomes that settle together.
- `ServicesSection.SortNewestFirst`: `createdAt` is an integer timestamp.
  The fallback to the time inside the record's ObjectId (`_id.substring(0,
  8) * 1000`), `new Date` parsing and the NaN comparisons of malformed dates
  are not modelled.
- `Text.Lower`: folds only ASCII letters. JavaScript's full Unicode
  `toLowerCase`, including length-changing mappings, is not modelled.
- `Projects.TruncatedDesc`: counts characters, not UTF-16 code units, so
  `slice` never splits a surrogate pair here.
- A `null` response body where the code reads `res.data.projects`,
  `res.data.services` (the object branch at ServicesSection.jsx:38) or
  `res.data.imageUrl` throws inside the handler's `try`. So does the contact
  reply: a non-JSON body makes `res.json()` reject (ContactUs.jsx:49) and a
  `null` JSON body makes `data.success` throw (ContactUs.jsx:51). Each ends
  in the handler's `catch`, the same as a failed request, so it is folded
  into `Failure`.
- `Records.ProjectsBody`: a truthy `projects` field that is not an array
  cannot be expressed. The projects page would then throw in its filter
  effect (`filtered.filter`), outside any `try`, and that crash is not
  modelled. The same holds for `ManageServices.ServiceList`: a truthy
  `services` value that is not an array (ManageServices.jsx:26) would make
  the page throw in `services.map` while rendering, which is not modelled.
- `Dashboard.LengthOrZero`: counts a string in characters, not in UTF-16
  code units, so a character outside the Basic Multilingual Plane counts 1
  where `.length` counts 2.
- `Dashboard.LengthOrZero`: an object value with its own `length` key is
  treated as having no length.
- `Testimonials.FetchTestimonials`: `res.data` is taken to be an array of
  testimonials. A non-array body, which would make the spread throw during
  rendering, is not modelled.
- `Testimonials.StarCount`: ratings are integers. Fractional and non-numeric
  ratings are not modelled.
- `ContactUs.ContactPage.BeginSubmit`: the browser's `type="email"` format
  check is not modelled; only the `required` attributes are.
- The project and service detail modals (`selectedProject`,
  `selectedService`), navigation, animations and all rendering beyond the
  lists and flags above.
- The context pages (blog, hero, about, all-services, why-choose-us,
  sidebar, set-up and newsletter sections) and `backend/testEmail.js` are
  not part of this model.

=== FILE: common.dfy ===
/** Small shared datatypes: optional values and the outcome of a network call. */
module Common {

  /** A JavaScript value that may be `undefined` or `null`. */
  datatype Option<+T> = None | Some(value: T)

  /** What an awaited request (axios or fetch) produced: the response body, or a
      rejection that lands in the handler's `catch` branch. */
  datatype Outcome<+T> = Success(data: T) | Failure

  function Min(a: int, b: int): (r: int)
    ensures r <= a && r <= b && (r == a || r == b)
  {
    if a <= b then a else b
  }
}

=== FILE: completed_projects.dfy ===
/** The home page's "Completed Projects" strip: the first two fetched projects,
    laid out left and right in turn. */
module CompletedProjects {
  import opened Common
  import opened Records

  /** How many projects the strip shows. */
  const Limit: nat := 2

  /** `projects.slice(0, 2)`: the first `min(2, n)` projects, in order. */
  function LimitedProjects(projects: seq<Project>): (r: seq<Project>)
    ensures |r| == Min(Limit, |projects|)
    ensures r <= projects
  {
    projects[..Min(Limit, |projects|)]
  }

  /** The "No projects found." branch is taken exactly when nothing was fetched. */
  lemma EmptyMessageIffNoProjects(projects: seq<Project>)
    ensures |LimitedProjects(projects)| == 0 <==> projects == []
  {
  }

  /** One card of the strip: the project and whether it uses `md:flex-row-reverse`. */
  datatype Card = Card(project: Project, reversed: bool)

  /** `limitedProjects.map((project, index) => ...)`: a card at an odd index is reversed. */
  function Cards(projects: seq<Project>): (r: seq<Card>)
    ensures |r| == |LimitedProjects(projects)|
    ensures forall i :: 0 <= i < |r| ==> r[i].project == projects[i]
  {
    var shown := LimitedProjects(projects);
    seq(|shown|, i requires 0 <= i < |shown| => Card(shown[i], i % 2 == 1))
  }

  /** The layout alternates: the first card is not reversed, and neighbouring
      cards face opposite ways. */
  lemma CardsAlternate(projects: seq<Project>)
    ensures Cards(projects) != [] ==> !Cards(projects)[0].reversed
    ensures forall i :: 0 <= i < |Cards(projects)| - 1 ==> Cards(projects)[i].reversed != Cards(projects)[i + 1].reversed
  {
  }

  /** The component's state. */
  class CompletedProjectsStrip {
    var projects: seq<Project>
    var loading: bool

    constructor ()
      ensures projects == [] && loading
    {
      projects := [];
      loading := true;
    }

    /** `fetchProjects`: `res.data.projects || []` on a response, no change on a
        failed request; the spinner is off in either case. */
    method FetchProjects(res: Outcome<ProjectsBody>)
      modifies this
      ensures !loading
      ensures res.Success? ==> projects == ProjectsOf(res.data)
      ensures res.Failure? ==> projects == old(projects)
    {
      if res.Success? {
        projects := ProjectsOf(res.data);
      }
      loading := false;
    }
  }

  /** A freshly mounted strip whose request fails takes the empty branch. */
  method FailedFetchShowsEmptyMessage() returns (shown: seq<Project>)
    ensures shown == []
  {
    var strip := new CompletedProjectsStrip();
    strip.FetchProjects(Failure);
    shown := LimitedProjects(strip.projects);
  }
}

=== FILE: contact_us.dfy ===
/** The public contact form. */
module ContactUs {
  import opened Common

  datatype ContactForm = ContactForm(name: string, email: string, phone: string, message: string)

  /** `{ name: "", email: "", phone: "", message: "" }`. */
  const EmptyForm: ContactForm := ContactForm("", "", "", "")

  /** The `name` attributes of the form's inputs. */
  datatype ContactField = Name | Email | Phone | Message

  function FieldValue(form: ContactForm, field: ContactField): (v: string)
  {
    match field
    case Name => form.name
    case Email => form.email
    case Phone => form.phone
    case Message => form.message
  }

  /** `(prev) => ({ ...prev, [name]: value })`. */
  function WithField(form: ContactForm, field: ContactField, value: string): (r: ContactForm)
    ensures FieldValue(r, field) == value
    ensures forall other :: other != field ==> FieldValue(r, other) == FieldValue(form, other)
  {
    match field
    case Name => form.(name := value)
    case Email => form.(email := value)
    case Phone => form.(phone := value)
    case Message => form.(message := value)
  }

  /** The inputs marked `required` (name, email, message) are not empty, so the
      browser lets the form submit. */
  predicate RequiredFilled(form: ContactForm)
  {
    form.name != "" && form.email != "" && form.message != ""
  }

  /** The JSON body of the reply to `POST /api/contact`. */
  datatype ContactReply = ContactReply(success: bool, message: Option<string>)

  /** The toast shown once the request settles. */
  datatype Notice = SuccessToast(text: string) | ErrorToast(text: string)

  const SentText: string := "Message sent successfully! \U{1F680}"
  const DefaultErrorText: string := "Failed to send message \U{274C}"
  const ServerErrorText: string := "Server error. Try again later \U{26A0}\U{FE0F}"

  /** `data.message || "Failed to send message ❌"`: the server's message when
      it is present and not empty, the default text otherwise. */
  function ErrorText(message: Option<string>): (r: string)
    ensures message.Some? && message.value != "" ==> r == message.value
    ensures message.None? || message == Some("") ==> r == DefaultErrorText
    ensures r != ""
  {
    match message
    case Some(m) => if m != "" then m else DefaultErrorText
    case None => DefaultErrorText
  }

  /** The toast for a settled request. */
  function NoticeFor(res: Outcome<ContactReply>): (r: Notice)
    ensures r.SuccessToast? <==> res.Success? && res.data.success
    ensures r.SuccessToast? ==> r == SuccessToast(SentText)
    ensures res.Success? && !res.data.success ==> r == ErrorToast(ErrorText(res.data.message))
    ensures res.Failure? ==> r == ErrorToast(ServerErrorText)
  {
    match res
    case Success(reply) => if reply.success then SuccessToast(SentText) else ErrorToast(ErrorText(reply.message))
    case Failure => ErrorToast(ServerErrorText)
  }

  /** The component's state. */
  class ContactPage {
    var formData: ContactForm
    var loading: bool

    constructor ()
      ensures formData == EmptyForm && !loading
    {
      formData := EmptyForm;
      loading := false;
    }

    /** `handleChange`: only the named field changes. */
    method HandleChange(field: ContactField, value: string)
      modifies this
      ensures formData == WithField(old(formData), field, value)
      ensures loading == old(loading)
    {
      formData := WithField(formData, field, value);
    }

    /** A submit up to the `await`. The submit button is disabled while a
        request is running and the browser holds back a form with an empty
        required field; then nothing is sent and nothing changes. Otherwise the
        spinner goes on and the form is sent as the JSON body. */
    method BeginSubmit() returns (body: Option<ContactForm>)
      modifies this
      ensures formData == old(formData)
      ensures old(loading) || !RequiredFilled(formData) ==> body.None? && loading == old(loading)
      ensures !old(loading) && RequiredFilled(formData) ==> body == Some(formData) && loading
    {
      if loading || !RequiredFilled(formData) {
        return None;
      }
      loading := true;
      body := Some(formData);
    }

    /** A submit after the `await`: a reply with `success` clears the form; a
        reply without it, or a failed request, keeps the form as it is. The
        spinner goes off either way. */
    method EndSubmit(res: Outcome<ContactReply>) returns (notice: Notice)
      modifies this
      ensures !loading
      ensures notice == NoticeFor(res)
      ensures res.Success? && res.data.success ==> formData == EmptyForm
      ensures !(res.Success? && res.data.success) ==> formData == old(formData)
    {
      if res.Success? {
        if res.data.success {
          notice := SuccessToast(SentText);
          formData := EmptyForm;
        } else {
          notice := ErrorToast(ErrorText(res.data.message));
        }
      } else {
        notice := ErrorToast(ServerErrorText);
      }
      loading := false;
    }
  }

  /** While a message is being sent a second submit sends nothing. */
  method NoDoubleSubmit(form: ContactForm) returns (first: Option<ContactForm>, second: Option<ContactForm>)
    requires RequiredFilled(form)
    ensures first == Some(form) && second.None?
  {
    var page := new ContactPage();
    page.HandleChange(Name, form.name);
    page.HandleChange(Email, form.email);
    page.HandleChange(Phone, form.phone);
    page.HandleChange(Message, form.message);
    first := page.BeginSubmit();
    second := page.BeginSubmit();
  }
}

=== FILE: dashboard.dfy ===
/** The admin dashboard's four counters. */
module Dashboard {
  import opened Common

  /** A JSON value, told apart only as far as `value?.length || 0` does. */
  datatype Value = JsonNull | JsonArray(length: nat) | JsonString(text: string) | JsonOther

  /** A response body: an object's fields (a `null` body has none). */
  type Body = map<string, Value>

  /** `data?.[key]?.length || 0`: an array counts its elements, a string its
      characters, anything else (absent, `null`, numbers, booleans, objects) 0. */
  function LengthOrZero(data: Body, key: string): (n: nat)
    ensures key !in data ==> n == 0
    ensures key in data && data[key].JsonArray? ==> n == data[key].length
    ensures key in data && data[key].JsonString? ==> n == |data[key].text|
    ensures key in data && (data[key].JsonNull? || data[key].JsonOther?) ==> n == 0
  {
    if key !in data then 0
    else match data[key]
      case JsonArray(length) => length
      case JsonString(text) => |text|
      case _ => 0
  }

  datatype Stats = Stats(projects: nat, services: nat, team: nat, messages: nat)

  /** The initial `stats`. */
  const NoStats: Stats := Stats(0, 0, 0, 0)

  predicate AllSucceeded(projectsRes: Outcome<Body>, servicesRes: Outcome<Body>, teamRes: Outcome<Body>, contactsRes: Outcome<Body>)
  {
    projectsRes.Success? && servicesRes.Success? && teamRes.Success? && contactsRes.Success?
  }

  /** `stats` once `Promise.all` settles: if all four reads answered, each
      counter reads its own field of its own response; if any read failed,
      `setStats` is never reached and the counters stay as they were. */
  function NextStats(current: Stats, projectsRes: Outcome<Body>, servicesRes: Outcome<Body>,
                     teamRes: Outcome<Body>, contactsRes: Outcome<Body>): (r: Stats)
    ensures !AllSucceeded(projectsRes, servicesRes, teamRes, contactsRes) ==> r == current
    ensures AllSucceeded(projectsRes, servicesRes, teamRes, contactsRes) ==>
      && r.projects == LengthOrZero(projectsRes.data, "projects")
      && r.services == LengthOrZero(servicesRes.data, "services")
      && r.team == LengthOrZero(teamRes.data, "team")
      && r.messages == LengthOrZero(contactsRes.data, "data")
  {
    match (projectsRes, servicesRes, teamRes, contactsRes)
    case (Success(p), Success(s), Success(t), Success(c)) =>
      Stats(LengthOrZero(p, "projects"), LengthOrZero(s, "services"), LengthOrZero(t, "team"), LengthOrZero(c, "data"))
    case _ => current
  }

  /** A failed read cannot be told apart from four empty collections: from the
      initial counters, both leave every counter at 0. */
  lemma FailureLooksLikeNoRecords(projectsRes: Outcome<Body>, servicesRes: Outcome<Body>,
                                  teamRes: Outcome<Body>, contactsRes: Outcome<Body>)
    requires !AllSucceeded(projectsRes, servicesRes, teamRes, contactsRes)
    ensures NextStats(NoStats, projectsRes, servicesRes, teamRes, contactsRes) ==
            NextStats(NoStats, Success(map[]), Success(map[]), Success(map[]), Success(map[]))
  {
  }

  /** Each counter depends on its own response only: changing any other
      response, as long as all four still answer, leaves it as it was. */
  lemma CountersAreIndependent(current: Stats, p: Body, s: Body, t: Body, c: Body,
                               p': Body, s': Body, t': Body, c': Body)
    ensures NextStats(current, Success(p), Success(s), Success(t), Success(c)).projects ==
            NextStats(current, Success(p), Success(s'), Success(t'), Success(c')).projects
    ensures NextStats(current, Success(p), Success(s), Success(t), Success(c)).services ==
            NextStats(current, Success(p'), Success(s), Success(t'), Success(c')).services
    ensures NextStats(current, Success(p), Success(s), Success(t), Success(c)).team ==
            NextStats(current, Success(p'), Success(s'), Success(t), Success(c')).team
    ensures NextStats(current, Success(p), Success(s), Success(t), Success(c)).messages ==
            NextStats(current, Success(p'), Success(s'), Success(t'), Success(c)).messages
  {
  }

  /** The component's state. */
  class DashboardHome {
    var stats: Stats
    var loading: bool

    /** Mount: counters at 0 and the loading screen on. */
    constructor ()
      ensures stats == NoStats && loading
    {
      stats := NoStats;
      loading := true;
    }

    /** `fetchStats` up to the `await`: the loading screen goes on. */
    method BeginFetch()
      modifies this
      ensures loading && stats == old(stats)
    {
      loading := true;
    }

    /** `fetchStats` after `Promise.all` settles: the counters are updated
        all together or not at all, and the loading screen goes off. */
    method EndFetch(projectsRes: Outcome<Body>, servicesRes: Outcome<Body>,
                    teamRes: Outcome<Body>, contactsRes: Outcome<Body>)
      modifies this
      ensures !loading
      ensures stats == NextStats(old(stats), projectsRes, servicesRes, teamRes, contactsRes)
    {
      if AllSucceeded(projectsRes, servicesRes, teamRes, contactsRes) {
        stats := Stats(
          LengthOrZero(projectsRes.data, "projects"),
          LengthOrZero(servicesRes.data, "services"),
          LengthOrZero(teamRes.data, "team"),
          LengthOrZero(contactsRes.data, "data"));
      }
      loading := false;
    }
  }
}

=== FILE: faq.dfy ===
/** The FAQ accordion: at most one answer is open. */
module Faq {
  import opened Common

  /** `openIndex === index ? null : index`. */
  function Toggled(openIndex: Option<nat>, index: nat): (r: Option<nat>)
    ensures r.Some? ==> r.value == index
    ensures r == Some(index) <==> openIndex != Some(index)
  {
    if openIndex == Some(index) then None else Some(index)
  }

  /** Two clicks on an item that was closed leave every item closed; two clicks
      on the open item leave it open. */
  lemma ToggleTwice(openIndex: Option<nat>, index: nat)
    ensures openIndex != Some(index) ==> Toggled(Toggled(openIndex, index), index) == None
    ensures openIndex == Some(index) ==> Toggled(Toggled(openIndex, index), index) == openIndex
  {
  }

  class Accordion {
    var openIndex: Option<nat>

    /** Item `index` shows its answer. */
    predicate IsOpen(index: nat)
      reads this
    {
      openIndex == Some(index)
    }

    /** Initially every item is closed. */
    constructor ()
      ensures forall i: nat :: !IsOpen(i)
    {
      openIndex := None;
    }

    /** A click on item `index`. */
    method Click(index: nat)
      modifies this
      ensures openIndex == Toggled(old(openIndex), index)
      ensures IsOpen(index) <==> !old(IsOpen(index))
      ensures forall i: nat :: i != index ==> !IsOpen(i)
    {
      openIndex := if openIndex == Some(index) then None else Some(index);
    }
  }

  /** At most one item is open in any state. */
  lemma AtMostOneOpen(a: Accordion, i: nat, j: nat)
    ensures a.IsOpen(i) && a.IsOpen(j) ==> i == j
  {
  }
}

=== FILE: manage_services.dfy ===
/** The admin page that lists services and adds, edits and deletes them through a modal. */
module ManageServices {
  import opened Common
  import opened Records

  /** The modal's `formData`. Its `icon` is `undefined` after editing a
      service that has none, until the icon input is typed into. */
  datatype ServiceForm = ServiceForm(title: string, desc: string, icon: Option<string>, image: Option<File>)

  /** `{ title: "", desc: "", icon: "", image: null }`. */
  const EmptyForm: ServiceForm := ServiceForm("", "", Some(""), None)

  /** The `name` attributes of the modal's text inputs. */
  datatype FormField = Title | Desc | Icon

  /** The value of a text field, `None` standing for `undefined`. */
  function FieldValue(form: ServiceForm, field: FormField): (v: Option<string>)
  {
    match field
    case Title => Some(form.title)
    case Desc => Some(form.desc)
    case Icon => form.icon
  }

  /** `{ ...formData, [e.target.name]: e.target.value }`. */
  function WithField(form: ServiceForm, field: FormField, value: string): (r: ServiceForm)
    ensures FieldValue(r, field) == Some(value)
    ensures forall other :: other != field ==> FieldValue(r, other) == FieldValue(form, other)
    ensures r.image == form.image
  {
    match field
    case Title => form.(title := value)
    case Desc => form.(desc := value)
    case Icon => form.(icon := Some(value))
  }

  /** The modal's `required` inputs, title and description, are not empty,
      so the browser lets the form submit. */
  predicate FormReady(form: ServiceForm)
  {
    form.title != "" && form.desc != ""
  }

  /** One `FormData` entry. */
  datatype Part = TextPart(text: string) | FilePart(file: File)

  /** A `FormData`: its entries in the order they were appended. */
  type Payload = seq<(string, Part)>

  /** `payload.get(key)`: the first entry under `key`. */
  function Lookup(payload: Payload, key: string): (r: Option<Part>)
  {
    if payload == [] then None
    else if payload[0].0 == key then Some(payload[0].1)
    else Lookup(payload[1..], key)
  }

  /** The text `FormData.append` stores for an optional value: `undefined`
      becomes the string "undefined". */
  function AppendedText(value: Option<string>): (r: string)
    ensures value.None? ==> r == "undefined"
    ensures value.Some? ==> r == value.value
  {
    match value
    case Some(text) => text
    case None => "undefined"
  }

  /** The payload the submit handler builds from the form. */
  function PayloadOf(form: ServiceForm): (r: Payload)
  {
    [("title", TextPart(form.title)), ("desc", TextPart(form.desc)), ("icon", TextPart(AppendedText(form.icon)))]
      + (if form.image.Some? then [("image", FilePart(form.image.value))] else [])
  }

  /** The payload always carries the three text fields and carries `image`
      exactly when the form holds a file; it carries nothing else. A form
      without an icon sends the text "undefined" as its icon. */
  lemma PayloadFields(form: ServiceForm)
    ensures Lookup(PayloadOf(form), "title") == Some(TextPart(form.title))
    ensures Lookup(PayloadOf(form), "desc") == Some(TextPart(form.desc))
    ensures form.icon.Some? ==> Lookup(PayloadOf(form), "icon") == Some(TextPart(form.icon.value))
    ensures form.icon.None? ==> Lookup(PayloadOf(form), "icon") == Some(TextPart("undefined"))
    ensures Lookup(PayloadOf(form), "image").Some? <==> form.image.Some?
    ensures form.image.Some? ==> Lookup(PayloadOf(form), "image") == Some(FilePart(form.image.value))
    ensures forall key :: key !in {"title", "desc", "icon", "image"} ==> Lookup(PayloadOf(form), key).None?
  {
    var p := PayloadOf(form);
    assert "title"[0] != "desc"[0] && "title"[0] != "icon"[0] && "title"[0] != "image"[0];
    assert "desc"[0] != "icon"[0] && "desc"[0] != "image"[0] && "icon"[1] != "image"[1];
    forall key ensures Lookup(p, key) ==
      if key == "title" then Some(TextPart(form.title))
      else if key == "desc" then Some(TextPart(form.desc))
      else if key == "icon" then Some(TextPart(AppendedText(form.icon)))
      else if key == "image" && form.image.Some? then Some(FilePart(form.image.value))
      else None
    {
      assert p[1..][1..] == p[2..] && p[2..][1..] == p[3..];
      assert Lookup(p, key) == if key == "title" then Some(p[0].1) else Lookup(p[1..], key);
      assert Lookup(p[1..], key) == if key == "desc" then Some(p[1].1) else Lookup(p[2..], key);
      assert Lookup(p[2..], key) == if key == "icon" then Some(p[2].1) else Lookup(p[3..], key);
      if form.image.Some? {
        assert p[3..][1..] == [];
        assert Lookup(p[3..], key) == if key == "image" then Some(p[3].1) else Lookup([], key);
      } else {
        assert p[3..] == [];
      }
    }
  }

  /** An HTTP request the page sends. */
  datatype Request = Post(url: string, body: Payload) | Put(url: string, body: Payload) | Delete(url: string)

  /** The submit request: a PUT to the edited service's URL while editing, a
      POST to the collection otherwise, with the form's payload either way. */
  function SubmitRequest(apiBase: string, editing: Option<Service>, form: ServiceForm): (r: Request)
    ensures editing.Some? ==> r == Put(apiBase + "/api/services/" + editing.value.id, PayloadOf(form))
    ensures editing.None? ==> r == Post(apiBase + "/api/services", PayloadOf(form))
  {
    match editing
    case Some(s) => Put(apiBase + "/api/services/" + s.id, PayloadOf(form))
    case None => Post(apiBase + "/api/services", PayloadOf(form))
  }

  /** The body of `GET /api/services`: `res.data?.services`. */
  datatype ServiceList = ServiceList(services: Option<seq<Service>>)

  /** `res.data?.services || []`. */
  function ServicesOf(body: ServiceList): (r: seq<Service>)
    ensures body.services.Some? ==> r == body.services.value
    ensures body.services.None? ==> r == []
  {
    match body.services
    case Some(s) => s
    case None => []
  }

  /** The page's state. */
  class ServiceManager {
    const apiBase: string
    var services: seq<Service>
    var loading: bool
    var uploading: bool
    var modalOpen: bool
    var editingService: Option<Service>
    var formData: ServiceForm

    constructor (apiBase: string)
      ensures this.apiBase == apiBase
      ensures services == [] && loading && !uploading && !modalOpen
      ensures editingService.None? && formData == EmptyForm
    {
      this.apiBase := apiBase;
      services := [];
      loading := true;
      uploading := false;
      modalOpen := false;
      editingService := None;
      formData := EmptyForm;
    }

    /** `fetchServices` once its request settles: the list on a response, no
        change on a failure; the first-load spinner is off afterwards. */
    method FetchServices(res: Outcome<ServiceList>)
      modifies this
      ensures !loading
      ensures res.Success? ==> services == ServicesOf(res.data)
      ensures res.Failure? ==> services == old(services)
      ensures uploading == old(uploading) && modalOpen == old(modalOpen)
      ensures editingService == old(editingService) && formData == old(formData)
    {
      if res.Success? {
        services := ServicesOf(res.data);
      }
      loading := false;
    }

    /** `handleChange`: only the named text field changes. */
    method HandleChange(field: FormField, value: string)
      modifies this
      ensures formData == WithField(old(formData), field, value)
      ensures services == old(services) && loading == old(loading) && uploading == old(uploading)
      ensures modalOpen == old(modalOpen) && editingService == old(editingService)
    {
      formData := WithField(formData, field, value);
    }

    /** `handleFileChange`: `image` becomes `files[0]`, which is `undefined`
        when the picker is cancelled; nothing else changes. */
    method HandleFileChange(file: Option<File>)
      modifies this
      ensures formData == old(formData).(image := file)
      ensures services == old(services) && loading == old(loading) && uploading == old(uploading)
      ensures modalOpen == old(modalOpen) && editingService == old(editingService)
    {
      formData := formData.(image := file);
    }

    /** A submit up to the `await`. The browser holds back a form whose
        `required` title or description is empty; then nothing is sent and
        nothing changes. Otherwise the overlay goes on and the request is built
        by appending the form's fields one after another. */
    method BeginSubmit() returns (req: Option<Request>)
      modifies this
      ensures !FormReady(formData) ==> req.None? && uploading == old(uploading)
      ensures FormReady(formData) ==> req == Some(SubmitRequest(apiBase, editingService, formData)) && uploading
      ensures services == old(services) && loading == old(loading) && modalOpen == old(modalOpen)
      ensures editingService == old(editingService) && formData == old(formData)
    {
      if !FormReady(formData) {
        return None;
      }
      uploading := true;
      var data: Payload := [];
      data := data + [("title", TextPart(formData.title))];
      data := data + [("desc", TextPart(formData.desc))];
      data := data + [("icon", TextPart(AppendedText(formData.icon)))];
      if formData.image.Some? {
        data := data + [("image", FilePart(formData.image.value))];
      }
      assert data == PayloadOf(formData);
      if editingService.Some? {
        req := Some(Put(apiBase + "/api/services/" + editingService.value.id, data));
      } else {
        req := Some(Post(apiBase + "/api/services", data));
      }
    }

    /** `handleSubmit` after the `await`. On success the modal closes, editing
        ends, the form is cleared and the list is to be fetched again; on
        failure the modal, the edited service and the form stay as they are.
        The overlay goes off either way. */
    method EndSubmit(res: Outcome<()>) returns (refetch: bool)
      modifies this
      ensures !uploading
      ensures refetch == res.Success?
      ensures res.Success? ==> !modalOpen && editingService.None? && formData == EmptyForm
      ensures res.Failure? ==>
        modalOpen == old(modalOpen) && editingService == old(editingService) && formData == old(formData)
      ensures services == old(services) && loading == old(loading)
    {
      refetch := false;
      if res.Success? {
        modalOpen := false;
        editingService := None;
        formData := EmptyForm;
        refetch := true;
      }
      uploading := false;
    }

    /** `handleDelete` up to the `await`: without confirmation nothing happens;
        with it the overlay goes on and the DELETE is sent. */
    method BeginDelete(id: string, confirmed: bool) returns (req: Option<Request>)
      modifies this
      ensures !confirmed ==> req.None? && uploading == old(uploading)
      ensures confirmed ==> req == Some(Delete(apiBase + "/api/services/" + id)) && uploading
      ensures services == old(services) && loading == old(loading) && modalOpen == old(modalOpen)
      ensures editingService == old(editingService) && formData == old(formData)
    {
      req := None;
      if confirmed {
        uploading := true;
        req := Some(Delete(apiBase + "/api/services/" + id));
      }
    }

    /** `handleDelete` after the `await`: the list is to be fetched again on
        success; the overlay goes off either way. */
    method EndDelete(res: Outcome<()>) returns (refetch: bool)
      modifies this
      ensures !uploading
      ensures refetch == res.Success?
      ensures services == old(services) && loading == old(loading) && modalOpen == old(modalOpen)
      ensures editingService == old(editingService) && formData == old(formData)
    {
      refetch := res.Success?;
      uploading := false;
    }

    /** `openEditModal`: edit `service`, with its text fields copied and no
        file; a missing icon is copied as `undefined`. */
    method OpenEditModal(service: Service)
      modifies this
      ensures editingService == Some(service) && modalOpen
      ensures formData == ServiceForm(service.title, service.desc, service.icon, None)
      ensures services == old(services) && loading == old(loading) && uploading == old(uploading)
    {
      editingService := Some(service);
      formData := ServiceForm(service.title, service.desc, service.icon, None);
      modalOpen := true;
    }

    /** The "Add Service" button: no service is edited and the form is empty. */
    method OpenAddModal()
      modifies this
      ensures editingService.None? && formData == EmptyForm && modalOpen
      ensures services == old(services) && loading == old(loading) && uploading == old(uploading)
    {
      editingService := None;
      formData := EmptyForm;
      modalOpen := true;
    }

    /** The modal's close button: only the modal closes. */
    method CloseModal()
      modifies this
      ensures !modalOpen
      ensures editingService == old(editingService) && formData == old(formData)
      ensures services == old(services) && loading == old(loading) && uploading == old(uploading)
    {
      modalOpen := false;
    }
  }

  /** Opening "Add Service" after an edit and filling in the required fields
      always posts a new service. */
  method AddAfterEditPosts(apiBase: string, edited: Service, title: string, desc: string) returns (req: Option<Request>)
    requires title != "" && desc != ""
    ensures req.Some? && req.value.Post? && req.value.url == apiBase + "/api/services"
  {
    var page := new ServiceManager(apiBase);
    page.OpenEditModal(edited);
    page.OpenAddModal();
    page.HandleChange(Title, title);
    page.HandleChange(Desc, desc);
    req := page.BeginSubmit();
  }

  /** Saving an edit of a service that has no icon, without touching the
      icon input, sends the text "undefined" as the new icon. */
  method IconlessEditSendsUndefined(apiBase: string, service: Service) returns (req: Option<Request>)
    requires service.icon.None? && service.title != "" && service.desc != ""
    ensures req.Some? && req.value.Put? && req.value.url == apiBase + "/api/services/" + service.id
    ensures req.Some? && req.value.Put? ==> Lookup(req.value.body, "icon") == Some(TextPart("undefined"))
  {
    var page := new ServiceManager(apiBase);
    page.OpenEditModal(service);
    req := page.BeginSubmit();
    PayloadFields(page.formData);
  }

  /** The empty "Add Service" form sends nothing. */
  method EmptyAddFormSendsNothing(apiBase: string) returns (req: Option<Request>)
    ensures req.None?
  {
    var page := new ServiceManager(apiBase);
    page.OpenAddModal();
    req := page.BeginSubmit();
  }
}

=== FILE: projects.dfy ===
/** The public projects page: fetch once, then derive the shown list from the
    fetched snapshot, a category token and a search term. */
module Projects {
  import opened Common
  import opened Text
  import opened Sequences
  import opened Records

  /** The category token that switches the category step off. */
  const All: string := "All"

  /** The category step: `p.type?.toLowerCase() === filterType.toLowerCase()`.
      A record without a `type` never matches. */
  predicate TypeMatches(p: Project, filterType: string)
  {
    p.projectType.Some? && Lower(p.projectType.value) == Lower(filterType)
  }

  /** `field?.toLowerCase().includes(searchTerm.toLowerCase())`: a missing
      field never matches. */
  predicate FieldMatches(field: Option<string>, searchTerm: string)
  {
    field.Some? && Includes(Lower(field.value), Lower(searchTerm))
  }

  /** The text step: the term occurs in the title, the location or the description. */
  predicate TextMatches(p: Project, searchTerm: string)
  {
    FieldMatches(p.title, searchTerm) || FieldMatches(p.location, searchTerm) || FieldMatches(p.desc, searchTerm)
  }

  /** The category step's test as a value, for `filter`. */
  function OfType(filterType: string): Project -> bool
  {
    p => TypeMatches(p, filterType)
  }

  /** The text step's test as a value, for `filter`. */
  function Mentioning(searchTerm: string): Project -> bool
  {
    p => TextMatches(p, searchTerm)
  }

  /** The filter effect: the category step unless the token is "All", then the
      text step unless the trimmed term is empty. The text step matches the
      untrimmed term. */
  function FilterProjects(projects: seq<Project>, searchTerm: string, filterType: string): (r: seq<Project>)
  {
    var byType := if filterType != All then Keep(projects, OfType(filterType)) else projects;
    if Trim(searchTerm) != "" then Keep(byType, Mentioning(searchTerm)) else byType
  }

  /** The same filter read as one test per record, with both steps joined by "and". */
  predicate Selected(p: Project, searchTerm: string, filterType: string)
  {
    && (filterType == All || TypeMatches(p, filterType))
    && (IsBlank(searchTerm) || TextMatches(p, searchTerm))
  }

  /** The two filter steps compose to the single test `Selected`. */
  lemma FilterIsSelection(projects: seq<Project>, searchTerm: string, filterType: string)
    ensures FilterProjects(projects, searchTerm, filterType) == Keep(projects, p => Selected(p, searchTerm, filterType))
  {
    TrimEmptyIffBlank(searchTerm);
    var byType := OfType(filterType);
    var byText := Mentioning(searchTerm);
    var sel := p => Selected(p, searchTerm, filterType);
    if filterType != All && !IsBlank(searchTerm) {
      KeepKeep(projects, byType, byText, sel);
    } else if filterType != All {
      KeepCongruent(projects, byType, sel);
    } else if !IsBlank(searchTerm) {
      KeepCongruent(projects, byText, sel);
    } else {
      KeepAll(projects, sel);
    }
  }

  /** The shown list is an order-preserving subsequence of the snapshot. */
  lemma FilterIsSubsequence(projects: seq<Project>, searchTerm: string, filterType: string)
    ensures IsSubsequence(FilterProjects(projects, searchTerm, filterType), projects)
    ensures multiset(FilterProjects(projects, searchTerm, filterType)) <= multiset(projects)
  {
    FilterIsSelection(projects, searchTerm, filterType);
    KeepIsSubsequence(projects, p => Selected(p, searchTerm, filterType));
    SubsequenceIsSubMultiset(FilterProjects(projects, searchTerm, filterType), projects);
  }

  /** A record is shown iff it is in the snapshot and passes both steps; with a
      category other than "All" a record without a `type` is never shown. */
  lemma FilterMembership(projects: seq<Project>, searchTerm: string, filterType: string, p: Project)
    ensures p in FilterProjects(projects, searchTerm, filterType) <==>
      && p in projects
      && (filterType == All || TypeMatches(p, filterType))
      && (Trim(searchTerm) == "" || TextMatches(p, searchTerm))
    ensures filterType != All && p.projectType.None? ==> p !in FilterProjects(projects, searchTerm, filterType)
  {
    FilterIsSelection(projects, searchTerm, filterType);
    TrimEmptyIffBlank(searchTerm);
    KeepMembership(projects, q => Selected(q, searchTerm, filterType), p);
  }

  /** An empty or whitespace-only term leaves only the category step. */
  lemma BlankTermKeepsCategoryResult(projects: seq<Project>, searchTerm: string, filterType: string)
    requires IsBlank(searchTerm)
    ensures FilterProjects(projects, searchTerm, filterType) ==
      if filterType == All then projects else Keep(projects, OfType(filterType))
  {
    TrimEmptyIffBlank(searchTerm);
  }

  /** The text step spelled out by positions: the lower-cased, untrimmed term
      starts at some index of the lower-cased title, location or description. */
  lemma TextMatchesIffOccurs(p: Project, searchTerm: string)
    ensures TextMatches(p, searchTerm) <==>
      || (p.title.Some? && Occurs(Lower(p.title.value), Lower(searchTerm)))
      || (p.location.Some? && Occurs(Lower(p.location.value), Lower(searchTerm)))
      || (p.desc.Some? && Occurs(Lower(p.desc.value), Lower(searchTerm)))
  {
    if p.title.Some? { IncludesIffOccurs(Lower(p.title.value), Lower(searchTerm)); }
    if p.location.Some? { IncludesIffOccurs(Lower(p.location.value), Lower(searchTerm)); }
    if p.desc.Some? { IncludesIffOccurs(Lower(p.desc.value), Lower(searchTerm)); }
  }

  /** Narrowing the category never adds results: for any term, the list under
      "All" contains, in order, the list under any other token. */
  lemma AllIsSuperset(projects: seq<Project>, searchTerm: string, filterType: string)
    ensures IsSubsequence(FilterProjects(projects, searchTerm, filterType), FilterProjects(projects, searchTerm, All))
  {
    FilterIsSelection(projects, searchTerm, filterType);
    FilterIsSelection(projects, searchTerm, All);
    KeepMonotone(projects, p => Selected(p, searchTerm, filterType), p => Selected(p, searchTerm, All));
  }

  /** With the initial controls (empty term, "All") every record is shown. */
  lemma InitialFilterShowsAll(projects: seq<Project>)
    ensures FilterProjects(projects, "", All) == projects
  {
  }

  /** The card text: `desc?.length > 100 ? desc.slice(0, 100) + "..." : desc`. */
  function TruncatedDesc(desc: Option<string>): (r: Option<string>)
    ensures r.Some? <==> desc.Some?
    ensures r.Some? && |desc.value| <= 100 ==> r.value == desc.value
    ensures r.Some? && |desc.value| > 100 ==>
      |r.value| == 103 && r.value[..100] == desc.value[..100] && r.value[100..] == "..."
  {
    match desc
    case None => None
    case Some(d) => if |d| > 100 then Some(d[..100] + "...") else Some(d)
  }

  /** The page's state: the fetched snapshot, the derived list and the two controls. */
  class ProjectsPage {
    var projects: seq<Project>
    var filteredProjects: seq<Project>
    var loading: bool
    var searchTerm: string
    var filterType: string

    /** The filter effect has run on the current snapshot and controls. */
    ghost predicate Settled()
      reads this`filteredProjects, this`projects, this`searchTerm, this`filterType
    {
      filteredProjects == FilterProjects(projects, searchTerm, filterType)
    }

    /** Mount: empty lists, spinner on, empty term, "All"; the effect has run once. */
    constructor ()
      ensures projects == [] && filteredProjects == [] && loading
      ensures searchTerm == "" && filterType == All
      ensures Settled()
    {
      projects := [];
      filteredProjects := [];
      loading := true;
      searchTerm := "";
      filterType := All;
    }

    /** The effect on `[searchTerm, filterType, projects]`. */
    method RunFilterEffect()
      modifies this`filteredProjects
      ensures Settled()
    {
      var filtered, token, term := projects, filterType, searchTerm;
      if token != All {
        filtered := Keep(filtered, OfType(token));
      }
      if Trim(term) != "" {
        filtered := Keep(filtered, Mentioning(term));
      }
      filteredProjects := filtered;
    }

    /** `fetchProjects`: on success both lists become `res.data.projects || []`
        and the effect re-runs on the new snapshot; on failure nothing but the
        spinner changes. The spinner is off afterwards in either case. */
    method FetchProjects(res: Outcome<ProjectsBody>)
      requires Settled()
      modifies this
      ensures Settled() && !loading
      ensures searchTerm == old(searchTerm) && filterType == old(filterType)
      ensures res.Success? ==> projects == ProjectsOf(res.data)
      ensures res.Failure? ==> projects == old(projects) && filteredProjects == old(filteredProjects)
    {
      if res.Success? {
        projects := ProjectsOf(res.data);
        filteredProjects := ProjectsOf(res.data);
        RunFilterEffect();
      }
      loading := false;
    }

    /** Typing in the search box. */
    method SetSearchTerm(term: string)
      requires Settled()
      modifies this
      ensures Settled() && searchTerm == term
      ensures projects == old(projects) && filterType == old(filterType) && loading == old(loading)
    {
      searchTerm := term;
      RunFilterEffect();
    }

    /** Choosing a category in the drop-down. */
    method SetFilterType(token: string)
      requires Settled()
      modifies this
      ensures Settled() && filterType == token
      ensures projects == old(projects) && searchTerm == old(searchTerm) && loading == old(loading)
    {
      filterType := token;
      RunFilterEffect();
    }
  }

  /** The first fetch, with the controls still at their initial values, shows
      the whole snapshot. */
  method FirstFetchShowsSnapshot(body: ProjectsBody) returns (shown: seq<Project>)
    ensures shown == ProjectsOf(body)
  {
    var page := new ProjectsPage();
    page.FetchProjects(Success(body));
    InitialFilterShowsAll(page.projects);
    shown := page.filteredProjects;
  }
}

=== FILE: records.dfy ===
/** The records the pages receive from the API, as far as the pages look at them. */
module Records {
  import opened Common

  /** A project as listed by `GET /api/projects`. Fields the server may leave
      out are optional, because the pages read them with `?.`. */
  datatype Project = Project(
    id: string,
    title: Option<string>,
    location: Option<string>,
    desc: Option<string>,
    projectType: Option<string>,   // the record's `type` field
    image: Option<string>)

  /** A service as listed by `GET /api/services`; `createdAt` is a timestamp.
      The icon is optional: `None` stands for a record without an `icon` key.
      A stored `null` icon, which the admin page would send back as the text
      "null", is not modelled. */
  datatype Service = Service(
    id: string,
    title: string,
    desc: string,
    icon: Option<string>,
    image: Option<string>,
    createdAt: int)

  /** A file picked in an `<input type="file">`; its bytes are not modelled. */
  datatype File = File(name: string, size: nat)

  /** The body of `GET /api/projects`: an object whose `projects` field may be absent. */
  datatype ProjectsBody = ProjectsBody(projects: Option<seq<Project>>)

  /** `res.data.projects || []` (an empty array is truthy, so it is kept as it is). */
  function ProjectsOf(body: ProjectsBody): (r: seq<Project>)
    ensures body.projects.Some? ==> r == body.projects.value
    ensures body.projects.None? ==> r == []
  {
    match body.projects
    case Some(ps) => ps
    case None => []
  }
}

=== FILE: sequences.dfy ===
/** `Array.prototype.filter` and the order-preserving subsequence relation. */
module Sequences {

  /** `s.filter(f)`: the elements of `s` that satisfy `f`, in their order. */
  function Keep<T>(s: seq<T>, f: T -> bool): (r: seq<T>)
    ensures |r| <= |s|
  {
    if s == [] then []
    else if f(s[0]) then [s[0]] + Keep(s[1..], f)
    else Keep(s[1..], f)
  }

  /** An element is kept iff it is in the input and satisfies the predicate. */
  lemma {:induction false} KeepMembership<T>(s: seq<T>, f: T -> bool, x: T)
    ensures x in Keep(s, f) <==> x in s && f(x)
  {
    if s != [] {
      KeepMembership(s[1..], f, x);
      assert s == [s[0]] + s[1..];
    }
  }

  /** `a` is obtained from `b` by deleting elements, keeping the order. */
  predicate IsSubsequence<T(==)>(a: seq<T>, b: seq<T>)
    decreases |b|
  {
    || a == []
    || (b != [] && a[0] == b[0] && IsSubsequence(a[1..], b[1..]))
    || (b != [] && IsSubsequence(a, b[1..]))
  }

  /** A subsequence holds no element, and no copy of an element, that `b`
      does not hold. */
  lemma {:induction false} SubsequenceIsSubMultiset<T>(a: seq<T>, b: seq<T>)
    requires IsSubsequence(a, b)
    ensures multiset(a) <= multiset(b)
    decreases |b|
  {
    if a == [] {
    } else if b != [] && a[0] == b[0] && IsSubsequence(a[1..], b[1..]) {
      SubsequenceIsSubMultiset(a[1..], b[1..]);
      assert a == [a[0]] + a[1..] && b == [b[0]] + b[1..];
    } else {
      SubsequenceIsSubMultiset(a, b[1..]);
      assert b == [b[0]] + b[1..];
    }
  }

  /** Filtering deletes elements and never reorders them. */
  lemma {:induction false} KeepIsSubsequence<T>(s: seq<T>, f: T -> bool)
    ensures IsSubsequence(Keep(s, f), s)
  {
    if s != [] {
      KeepIsSubsequence(s[1..], f);
    }
  }

  /** A weaker predicate keeps more: the result under `f` is a subsequence of
      the result under any `g` that `f` implies. */
  lemma {:induction false} KeepMonotone<T>(s: seq<T>, f: T -> bool, g: T -> bool)
    requires forall x :: f(x) ==> g(x)
    ensures IsSubsequence(Keep(s, f), Keep(s, g))
  {
    if s != [] {
      KeepMonotone(s[1..], f, g);
    }
  }

  /** Two filters in a row are one filter by the conjunction. */
  lemma {:induction false} KeepKeep<T>(s: seq<T>, f: T -> bool, g: T -> bool, h: T -> bool)
    requires forall x :: h(x) == (f(x) && g(x))
    ensures Keep(Keep(s, f), g) == Keep(s, h)
  {
    if s != [] {
      KeepKeep(s[1..], f, g, h);
    }
  }

  /** A filter that rejects nothing returns its input. */
  lemma {:induction false} KeepAll<T>(s: seq<T>, f: T -> bool)
    requires forall x :: x in s ==> f(x)
    ensures Keep(s, f) == s
  {
    if s != [] {
      KeepAll(s[1..], f);
    }
  }

  /** Filters whose predicates agree on every element give the same result. */
  lemma {:induction false} KeepCongruent<T>(s: seq<T>, f: T -> bool, g: T -> bool)
    requires forall x :: x in s ==> f(x) == g(x)
    ensures Keep(s, f) == Keep(s, g)
  {
    if s != [] {
      KeepCongruent(s[1..], f, g);
    }
  }
}

=== FILE: services_section.dfy ===
/** The home page's services strip: fetch the services, keep the three newest. */
module ServicesSection {
  import opened Common
  import opened Records
  import opened Sequences

  /** What an object body holds under `services`. */
  datatype Field = Missing | Items(items: seq<Service>) | NotArray(truthy: bool)

  /** `res.data`: either an array or an object. */
  datatype ServicesBody = ArrayBody(items: seq<Service>) | ObjectBody(services: Field)

  /** `Array.isArray(res.data) ? res.data : res.data.services || []`; `None`
      stands for a value that is not an array (a truthy non-array `services`). */
  function Extract(body: ServicesBody): (all: Option<seq<Service>>)
    ensures body.ArrayBody? ==> all == Some(body.items)
    ensures body.ObjectBody? && body.services.Items? ==> all == Some(body.services.items)
    ensures body.ObjectBody? && body.services.Missing? ==> all == Some([])
    ensures all.None? <==> body == ObjectBody(NotArray(true))
  {
    match body
    case ArrayBody(items) => Some(items)
    case ObjectBody(Items(items)) => Some(items)
    case ObjectBody(Missing) => Some([])
    case ObjectBody(NotArray(truthy)) => if truthy then None else Some([])
  }

  /** Non-increasing `createdAt`: newest first. */
  predicate NewestFirst(s: seq<Service>)
  {
    forall i, j :: 0 <= i < j < |s| ==> s[i].createdAt >= s[j].createdAt
  }

  /** Putting in front an element at least as new as the head keeps the order. */
  lemma PrependKeepsNewestFirst(y: Service, t: seq<Service>)
    requires NewestFirst(t)
    requires t == [] || y.createdAt >= t[0].createdAt
    ensures NewestFirst([y] + t)
  {
    var r := [y] + t;
    forall i, j | 0 <= i < j < |r| ensures r[i].createdAt >= r[j].createdAt {
      if i == 0 {
        assert r[j] == t[j - 1] && t[0].createdAt >= t[j - 1].createdAt;
      } else {
        assert r[i] == t[i - 1] && r[j] == t[j - 1];
      }
    }
  }

  /** Dropping the newest element keeps the rest newest first. */
  lemma TailNewestFirst(s: seq<Service>)
    requires s != [] && NewestFirst(s)
    ensures NewestFirst(s[1..])
  {
    forall i, j | 0 <= i < j < |s| - 1 ensures s[1..][i].createdAt >= s[1..][j].createdAt {
      assert s[1..][i] == s[i + 1] && s[1..][j] == s[j + 1];
    }
  }

  /** Insert `x` before the first element that is not newer than it, so that
      among equal timestamps earlier elements stay first. */
  function Insert(x: Service, s: seq<Service>): (r: seq<Service>)
    requires NewestFirst(s)
    ensures |r| == |s| + 1
    ensures multiset(r) == multiset(s) + multiset{x}
    ensures NewestFirst(r)
    ensures r[0] == x || (s != [] && r[0] == s[0])
  {
    if s == [] || x.createdAt >= s[0].createdAt then
      PrependKeepsNewestFirst(x, s);
      [x] + s
    else
      TailNewestFirst(s);
      var rest := Insert(x, s[1..]);
      assert s == [s[0]] + s[1..];
      assert multiset([s[0]] + rest) == multiset{s[0]} + multiset(rest);
      PrependKeepsNewestFirst(s[0], rest);
      [s[0]] + rest
  }

  /** `[...all].sort((a, b) => b.createdAt - a.createdAt)`: a sorted copy. */
  function SortNewestFirst(s: seq<Service>): (r: seq<Service>)
    ensures |r| == |s|
    ensures multiset(r) == multiset(s)
    ensures NewestFirst(r)
  {
    if s == [] then []
    else
      assert s == [s[0]] + s[1..];
      Insert(s[0], SortNewestFirst(s[1..]))
  }

  /** The services of `s` stamped `c`, in their order in `s`. */
  function StampedAt(s: seq<Service>, c: int): (r: seq<Service>)
  {
    Keep(s, (y: Service) => y.createdAt == c)
  }

  /** Inserting `x` goes past every newer element only, so among the
      elements stamped like `x` it lands first. */
  lemma {:induction false} InsertStable(x: Service, s: seq<Service>, c: int)
    requires NewestFirst(s)
    ensures StampedAt(Insert(x, s), c) == if x.createdAt == c then [x] + StampedAt(s, c) else StampedAt(s, c)
  {
    if s == [] || x.createdAt >= s[0].createdAt {
      var r := [x] + s;
      assert r[0] == x && r[1..] == s;
    } else {
      var rest := Insert(x, s[1..]);
      InsertStable(x, s[1..], c);
      var r := [s[0]] + rest;
      assert r[0] == s[0] && r[1..] == rest;
    }
  }

  /** The sort is stable, as `Array.prototype.sort` is: services with the same
      timestamp keep their relative order from the response. */
  lemma {:induction false} SortIsStable(s: seq<Service>, c: int)
    ensures StampedAt(SortNewestFirst(s), c) == StampedAt(s, c)
  {
    if s != [] {
      SortIsStable(s[1..], c);
      InsertStable(s[0], SortNewestFirst(s[1..]), c);
    }
  }

  /** How many services the strip shows. */
  const Limit: nat := 3

  /** `sorted.slice(0, 3)`: `min(3, n)` services, newest first. */
  function Newest(all: seq<Service>): (r: seq<Service>)
    ensures |r| == Min(Limit, |all|)
    ensures NewestFirst(r)
  {
    var sorted := SortNewestFirst(all);
    sorted[..Min(Limit, |sorted|)]
  }

  /** In a newest-first list nothing after position `k` is newer than
      anything before it. */
  lemma SuffixNotNewer(s: seq<Service>, k: nat)
    requires NewestFirst(s) && k <= |s|
    ensures forall x, y :: x in s[k..] && y in s[..k] ==> x.createdAt <= y.createdAt
  {
    forall x, y | x in s[k..] && y in s[..k] ensures x.createdAt <= y.createdAt {
      var j :| 0 <= j < |s| - k && s[k..][j] == x;
      var i :| 0 <= i < k && s[..k][i] == y;
      assert s[i] == y && s[k + j] == x;
    }
  }

  /** Cutting a list in two splits its multiset. */
  lemma SplitMultiset(s: seq<Service>, k: nat)
    requires k <= |s|
    ensures multiset(s) == multiset(s[..k]) + multiset(s[k..])
  {
    assert s == s[..k] + s[k..];
  }

  /** The services the strip leaves out: the sorted list past the first three. */
  function Omitted(all: seq<Service>): (r: seq<Service>)
  {
    var sorted := SortNewestFirst(all);
    sorted[Min(Limit, |sorted|)..]
  }

  /** The shown and the omitted services together are exactly the response. */
  lemma NewestAndOmittedPartition(all: seq<Service>)
    ensures multiset(Newest(all)) + multiset(Omitted(all)) == multiset(all)
    ensures multiset(Newest(all)) <= multiset(all)
  {
    var sorted := SortNewestFirst(all);
    SplitMultiset(sorted, Min(Limit, |sorted|));
  }

  /** No omitted service is newer than a shown one. */
  lemma OmittedNotNewer(all: seq<Service>)
    ensures forall x, y :: x in Omitted(all) && y in Newest(all) ==> x.createdAt <= y.createdAt
  {
    var sorted := SortNewestFirst(all);
    SuffixNotNewer(sorted, Min(Limit, |sorted|));
  }

  /** The extraction and the empty guard: a list that is not an array, or is
      empty, shows nothing; otherwise the newest three are shown. */
  function ServicesToShow(body: ServicesBody): (r: seq<Service>)
    ensures Extract(body).None? ==> r == []
    ensures Extract(body).Some? ==> r == Newest(Extract(body).value)
  {
    match Extract(body)
    case None => []
    case Some(all) => if |all| == 0 then [] else Newest(all)
  }

  /** The component's state. */
  class ServicesStrip {
    var services: seq<Service>
    var loading: bool

    constructor ()
      ensures services == [] && loading
    {
      services := [];
      loading := true;
    }

    /** `fetchServices`: on a response, the services to show; on a failed
        request, the list stays as it was. The spinner is off in every case,
        the early return for an empty list included. */
    method FetchServices(res: Outcome<ServicesBody>)
      modifies this
      ensures !loading
      ensures res.Success? ==> services == ServicesToShow(res.data)
      ensures res.Failure? ==> services == old(services)
    {
      if res.Success? {
        var all := Extract(res.data);
        if all.None? || |all.value| == 0 {
          services := [];
        } else {
          var sorted := SortNewestFirst(all.value);
          services := sorted[..Min(Limit, |sorted|)];
        }
      }
      loading := false;
    }
  }

  /** A freshly mounted strip whose request fails shows no service. */
  method FailedFirstFetchShowsNothing() returns (shown: seq<Service>, spinner: bool)
    ensures shown == [] && !spinner
  {
    var strip := new ServicesStrip();
    strip.FetchServices(Failure);
    shown, spinner := strip.services, strip.loading;
  }
}

=== FILE: testimonials.dfy ===
/** The testimonials marquee: the fetched list repeated four times, each card
    with a row of stars. */
module Testimonials {
  import opened Common

  datatype Testimonial = Testimonial(name: string, role: Option<string>, feedback: string, rating: Option<int>)

  /** `[...t, ...t, ...t, ...t]`. */
  function Repeated<T>(t: seq<T>): (r: seq<T>)
    ensures |r| == 4 * |t|
  {
    t + t + t + t
  }

  lemma PositiveFactor(n: int, x: int)
    requires n > 0 && n * x > 0
    ensures x > 0
  {
  }

  /** An index inside the `m`-th copy of a block of length `n` is `m * n` past
      its remainder. */
  lemma ModInCopy(k: int, n: int, m: int)
    requires n > 0 && 0 <= m && m * n <= k < (m + 1) * n
    ensures k % n == k - m * n
  {
    var q, r := k / n, k % n;
    assert k == n * q + r && 0 <= r < n;
    assert n * (q - m + 1) == n * q - m * n + n;
    PositiveFactor(n, q - m + 1);
    assert n * (m + 1 - q) == m * n + n - n * q;
    PositiveFactor(n, m + 1 - q);
    assert n * q == m * n;
  }

  /** The marquee holds `4 * n` cards, and card `k` shows testimonial `k mod n`. */
  lemma RepeatedCycles<T>(t: seq<T>)
    ensures |Repeated(t)| == 4 * |t|
    ensures forall k :: 0 <= k < |Repeated(t)| ==> Repeated(t)[k] == t[k % |t|]
  {
    var r, n := Repeated(t), |t|;
    forall k | 0 <= k < |r| ensures r[k] == t[k % n] {
      var m := if k < n then 0 else if k < 2 * n then 1 else if k < 3 * n then 2 else 3;
      ModInCopy(k, n, m);
      assert r[k] == t[k - m * n];
    }
  }

  /** The largest length `Array` accepts: `2^32 - 1`. */
  const MaxArrayLength: int := 0xFFFF_FFFF

  /** `Array(t.rating || 5)`: a missing or zero rating gives five stars, a
      positive one that many; a negative length, or one past the largest array
      length, makes `Array` throw, shown here as `None`. */
  function StarCount(rating: Option<int>): (r: Option<nat>)
    ensures (rating.None? || rating == Some(0)) ==> r == Some(5)
    ensures rating.Some? && 0 < rating.value <= MaxArrayLength ==> r == Some(rating.value)
    ensures r.None? <==> rating.Some? && (rating.value < 0 || rating.value > MaxArrayLength)
  {
    match rating
    case None => Some(5)
    case Some(n) => if n == 0 then Some(5) else if 0 < n <= MaxArrayLength then Some(n) else None
  }

  /** The component's state. */
  class TestimonialsSection {
    var testimonials: seq<Testimonial>

    constructor ()
      ensures testimonials == []
    {
      testimonials := [];
    }

    /** `.then((res) => setTestimonials(res.data))`; a rejection only logs. */
    method FetchTestimonials(res: Outcome<seq<Testimonial>>)
      modifies this
      ensures res.Success? ==> testimonials == res.data
      ensures res.Failure? ==> testimonials == old(testimonials)
    {
      if res.Success? {
        testimonials := res.data;
      }
    }
  }

  /** A failed first fetch leaves the marquee empty. */
  method FailedFetchShowsNoCards() returns (cards: seq<Testimonial>)
    ensures cards == []
  {
    var section := new TestimonialsSection();
    section.FetchTestimonials(Failure);
    cards := Repeated(section.testimonials);
  }
}

=== FILE: text.dfy ===
/** The string operations the pages use: `toLowerCase`, `trim` and `includes`.
    Case folding is ASCII only. */
module Text {

  /** `toLowerCase` on one character, restricted to the ASCII letters. */
  function LowerChar(c: char): (r: char)
    ensures 'A' <= c <= 'Z' ==> r as int == c as int + 32
    ensures !('A' <= c <= 'Z') ==> r == c
    ensures !('A' <= r <= 'Z')
  {
    if 'A' <= c <= 'Z' then (c as int + 32) as char else c
  }

  function Lower(s: string): (r: string)
    ensures |r| == |s|
    ensures forall i :: 0 <= i < |s| ==> r[i] == LowerChar(s[i])
  {
    if s == [] then [] else [LowerChar(s[0])] + Lower(s[1..])
  }

  /** The characters `String.prototype.trim` removes: ECMAScript WhiteSpace and
      LineTerminator code points. */
  predicate IsWhitespace(c: char)
  {
    || c == '\t' || c == '\n' || c == '\U{B}' || c == '\U{C}' || c == '\r' || c == ' '
    || c == '\U{A0}' || c == '\U{1680}' || ('\U{2000}' <= c <= '\U{200A}')
    || c == '\U{2028}' || c == '\U{2029}' || c == '\U{202F}' || c == '\U{205F}'
    || c == '\U{3000}' || c == '\U{FEFF}'
  }

  /** Every character of `s` is whitespace (this includes the empty string). */
  predicate IsBlank(s: string)
  {
    forall i :: 0 <= i < |s| ==> IsWhitespace(s[i])
  }

  /** `trimStart`: drop leading whitespace. */
  function TrimStart(s: string): (r: string)
  {
    if s != [] && IsWhitespace(s[0]) then TrimStart(s[1..]) else s
  }

  /** `trimEnd`: drop trailing whitespace. */
  function TrimEnd(s: string): (r: string)
  {
    if s != [] && IsWhitespace(s[|s| - 1]) then TrimEnd(s[..|s| - 1]) else s
  }

  /** `String.prototype.trim`: drop leading and trailing whitespace. */
  function Trim(s: string): (r: string)
  {
    TrimEnd(TrimStart(s))
  }

  /** `TrimStart` removes a whitespace-only prefix and stops at the first
      character that is not whitespace. */
  lemma {:induction false} TrimStartRemovesBlankPrefix(s: string)
    ensures |TrimStart(s)| <= |s| && TrimStart(s) == s[|s| - |TrimStart(s)|..]
    ensures TrimStart(s) == [] || !IsWhitespace(TrimStart(s)[0])
    ensures IsBlank(s[..|s| - |TrimStart(s)|])
  {
    if s != [] && IsWhitespace(s[0]) {
      TrimStartRemovesBlankPrefix(s[1..]);
      var r := TrimStart(s[1..]);
      var k := |s| - |r|;
      assert s[1..][|s| - 1 - |r|..] == s[k..];
      forall i | 0 <= i < k ensures IsWhitespace(s[..k][i]) {
        if i > 0 {
          assert s[..k][i] == s[1..][..|s| - 1 - |r|][i - 1];
        }
      }
    }
  }

  /** `TrimEnd` removes a whitespace-only suffix and stops at the last
      character that is not whitespace. */
  lemma {:induction false} TrimEndRemovesBlankSuffix(s: string)
    ensures |TrimEnd(s)| <= |s| && TrimEnd(s) == s[..|TrimEnd(s)|]
    ensures TrimEnd(s) == [] || !IsWhitespace(TrimEnd(s)[|TrimEnd(s)| - 1])
    ensures IsBlank(s[|TrimEnd(s)|..])
  {
    if s != [] && IsWhitespace(s[|s| - 1]) {
      var t := s[..|s| - 1];
      TrimEndRemovesBlankSuffix(t);
      var r := TrimEnd(t);
      assert t[..|r|] == s[..|r|];
      assert t[|r|..] + [s[|s| - 1]] == s[|r|..];
    }
  }

  /** The trimmed string is a contiguous slice of the input that neither
      starts nor ends with whitespace. */
  lemma TrimIsCore(s: string)
    ensures Trim(s) == [] || (!IsWhitespace(Trim(s)[0]) && !IsWhitespace(Trim(s)[|Trim(s)| - 1]))
    ensures exists i {:trigger s[i..]} :: 0 <= i <= |s| - |Trim(s)| && Trim(s) == s[i..i + |Trim(s)|]
  {
    var t := TrimStart(s);
    TrimStartRemovesBlankPrefix(s);
    TrimEndRemovesBlankSuffix(t);
    var r := TrimEnd(t);
    if r != [] {
      assert r[0] == t[0];
    }
    assert r == s[|s| - |t|..][..|r|] == s[|s| - |t|..|s| - |t| + |r|];
  }

  /** The text filter runs only when `trim()` leaves something; that happens
      exactly when the term holds a non-whitespace character. */
  lemma {:induction false} TrimEmptyIffBlank(s: string)
    ensures Trim(s) == [] <==> IsBlank(s)
  {
    var t := TrimStart(s);
    TrimStartRemovesBlankPrefix(s);
    if t == [] {
      assert s[..|s| - |t|] == s;
    } else {
      assert !IsWhitespace(s[|s| - |t|]);
      TrimEndRemovesBlankSuffix(t);
      var r := TrimEnd(t);
      if |r| < |t| {
        assert IsWhitespace(t[|r|]) by { assert t[|r|..][0] == t[|r|]; }
      }
    }
  }

  /** `sub` occurs in `s` starting at index `i`. */
  predicate OccursAt(s: string, sub: string, i: nat)
  {
    i + |sub| <= |s| && s[i..i + |sub|] == sub
  }

  /** Positional reading of substring occurrence: some index where `sub` starts. */
  ghost predicate Occurs(s: string, sub: string)
  {
    exists i: nat :: OccursAt(s, sub, i)
  }

  /** `String.prototype.includes`: `sub` occurs somewhere in `s`; the empty
      string occurs everywhere. */
  predicate Includes(s: string, sub: string)
    decreases |s|
  {
    sub <= s || (s != [] && Includes(s[1..], sub))
  }

  /** An occurrence in the tail is an occurrence one index further in the whole. */
  lemma OccursAtShift(s: string, sub: string, i: nat)
    requires s != []
    ensures OccursAt(s[1..], sub, i) <==> OccursAt(s, sub, i + 1)
  {
    if i + 1 + |sub| <= |s| {
      assert s[1..][i..i + |sub|] == s[i + 1..i + 1 + |sub|];
    }
  }

  /** `Includes` agrees with the positional reading "there is an index where
      `sub` starts". */
  lemma {:induction false} IncludesIffOccurs(s: string, sub: string)
    ensures Includes(s, sub) <==> Occurs(s, sub)
    decreases |s|
  {
    if sub <= s {
      assert OccursAt(s, sub, 0);
    } else if s == [] {
      assert |sub| > 0;
    } else {
      IncludesIffOccurs(s[1..], sub);
      assert !OccursAt(s, sub, 0);
      if Occurs(s[1..], sub) {
        var i: nat :| OccursAt(s[1..], sub, i);
        OccursAtShift(s, sub, i);
      }
      if Occurs(s, sub) {
        var i: nat :| OccursAt(s, sub, i);
        OccursAtShift(s, sub, i - 1);
      }
    }
  }
}

=== FILE: upload_test.dfy ===
/** The image upload test page: pick one file, preview it, upload it. */
module UploadTest {
  import opened Common
  import opened Records

  /** The body of `POST /api/upload`; `imageUrl` may be missing. */
  datatype UploadReply = UploadReply(imageUrl: Option<string>)

  /** A multipart request: the URL and the appended (name, file) parts. */
  datatype UploadRequest = UploadRequest(url: string, parts: seq<(string, File)>)

  class UploadPage {
    const apiBase: string
    var image: Option<File>
    var preview: string
    var uploadedUrl: Option<string>
    var loading: bool

    constructor (apiBase: string)
      ensures this.apiBase == apiBase
      ensures image.None? && preview == "" && uploadedUrl == Some("") && !loading
    {
      this.apiBase := apiBase;
      image := None;
      preview := "";
      uploadedUrl := Some("");
      loading := false;
    }

    /** `handleImageChange`: a picked file replaces the image and its preview
        (`objectUrl` stands for `URL.createObjectURL(file)`); picking nothing
        changes nothing. */
    method HandleImageChange(file: Option<File>, objectUrl: string)
      modifies this
      ensures file.None? ==> image == old(image) && preview == old(preview)
      ensures file.Some? ==> image == file && preview == objectUrl
      ensures uploadedUrl == old(uploadedUrl) && loading == old(loading)
    {
      if file.Some? {
        image := file;
        preview := objectUrl;
      }
    }

    /** A click on "Upload Image" up to the `await`. While an upload is running
        the button is disabled, and without an image the handler only alerts:
        in both cases no request is sent and nothing changes. Otherwise the
        request carries exactly one part, `image`, and the spinner goes on. */
    method BeginUpload() returns (req: Option<UploadRequest>)
      modifies this
      ensures image == old(image) && preview == old(preview) && uploadedUrl == old(uploadedUrl)
      ensures old(loading) || image.None? ==> req.None? && loading == old(loading)
      ensures !old(loading) && image.Some? ==>
        && req == Some(UploadRequest(apiBase + "/api/upload", [("image", image.value)]))
        && loading
    {
      if loading {
        return None;
      }
      if image.None? {
        return None;
      }
      var parts: seq<(string, File)> := [];
      parts := parts + [("image", image.value)];
      assert parts == [("image", image.value)];
      loading := true;
      req := Some(UploadRequest(apiBase + "/api/upload", parts));
    }

    /** After the `await`: on a reply `uploadedUrl` becomes its `imageUrl`, on a
        failure it is kept; the spinner goes off either way. */
    method EndUpload(res: Outcome<UploadReply>)
      modifies this
      ensures !loading
      ensures res.Success? ==> uploadedUrl == res.data.imageUrl
      ensures res.Failure? ==> uploadedUrl == old(uploadedUrl)
      ensures image == old(image) && preview == old(preview)
    {
      if res.Success? {
        uploadedUrl := res.data.imageUrl;
      }
      loading := false;
    }
  }
}
